=== FILE: README.md ===
# Element-level document diff: a Dafny model

This project models the core of the document comparison in
`src/utils/textComparison.js`. Each document is decomposed into an ordered
sequence of content units (elements and text runs). The `content` fields of
each sequence are joined with newlines, a character diff runs over the two
texts, and `createElementDiff` maps the resulting edit script back onto whole
units. Each emitted unit is tagged `equal`, `insert` or `delete`.
`calculateSummary` counts the tags. `renderHtmlDifferences` concatenates
the contents of a result list.

Modules:

- `Units` (`units.dfy`): content units, the newline join of their contents,
  and the width each unit adds to a character cursor (content length plus
  one separator).
- `EditScript` (`edit_script.dfy`): edit-script pairs and the diff engine's
  contract (`IsEditScript`). Also the classified unit, the tagging rule
  `WellTagged`, and the two side projections `FromRight` and `FromLeft`.
- `ElementDiff` (`element_diff.dfy`): the mapper. `Consume` is one inner
  loop, `Step` handles one pair, and `Run` is the outer loop, all as
  functions. `CreateElementDiff` and `ConsumeLoop` are methods with the
  loops and four cursors as written. The `Mapper` parameter chooses the loop
  guard: `AsWritten` (the source's guard) or `Intended` (see Findings).
- `DrainForm` (`drain_form.dfy`): a cursor-free description of what the
  as-written mapper outputs, and the end-to-end consequences.
- `Summary` (`summary.dfy`) and `Render` (`render.dfy`): the two consumers.
- `AlignedDiff` (`aligned_diff.dfy`): the mapper with both defects listed
  under Findings corrected.
- `Findings` (`findings.dfy`): concrete inputs that show the two defects,
  as written and corrected.

The edit script is an input to the model. Most lemmas take any script.
Some require `IsEditScript(script, Join(left), Join(right))`, which is the
contract of the diff engine. `DrainForm.NoEditsAllEqual` and
`DrainForm.UnchangedDocument` instead assume that every pair is an equal
pair, which is what the engine returns for two identical texts.

Three facts about the code shape the model:

- A non-empty pair takes every remaining unit on its side, because the
  loop guard compares a cursor with itself plus the pair's length (see
  Findings). The main model keeps that guard literally as
  `charIndex < charIndex + textLength`.
- A unit's content may itself contain the newline used as separator, and
  then the joined text does not determine the units. Text units keep
  their untrimmed text. Element contents are `textContent.trim()` (line
  72), which strips only leading and trailing whitespace, so any element
  with whitespace between its block children has interior newlines.
  `Units.SplitJoin` therefore requires that no content contains a
  newline, which real documents rarely satisfy.
- When the joined right text is empty, no equal or insert pair has text,
  so no right unit is emitted: a document whose only unit has empty
  content (an image, say) never appears in the output
  (`DrainForm.EmptyTextsEmitNothing`). `DrainForm.InsertedDocument`
  accordingly requires `Join(right) != ""`.

## Model

| member | source | states |
|---|---|---|
| Units.Join | src/utils/textComparison.js:107-108 | The empty unit sequence joins to the empty text. A non-empty one joins to a text exactly one character shorter than the width the cursors count (content plus one separator per unit), since no separator follows the last unit. |
| Units.JoinLayout | src/utils/textComparison.js:107-108 | Unit `k`'s content sits in the joined text at offset `Width(us[..k])`, the value a character cursor has when it reaches unit `k` (lines 115-136), and every unit but the first is preceded by a separator. |
| Units.SplitJoin | src/utils/textComparison.js:107-108 | If no content contains a newline, splitting the joined text at newlines recovers the contents in order, so the join is unambiguous. |
| Units.JoinSplitsIntoContents | src/utils/textComparison.js:107-108 | The same round trip stated for unit sequences: split of join gives back each unit's `content`. |
| EditScript.SourceTextEmpty | src/utils/textComparison.js:111-112 | A script's source text (equal and delete pairs) is empty exactly when every equal and delete pair has empty text. |
| EditScript.TargetTextEmpty | src/utils/textComparison.js:111-112 | A script's target text (equal and insert pairs) is empty exactly when every equal and insert pair has empty text. |
| EditScript.Tag | src/utils/textComparison.js:127-163 | A pushed object carries the input unit unchanged and the given operation. It is highlighted exactly for insert and delete. Its highlight type is `added` for insert, `removed` for delete, and absent for equal, since units from the extractor carry no `highlightType` of their own. |
| ElementDiff.Consume | src/utils/textComparison.js:125-136 | Under either guard, an inner loop emits a contiguous run of units starting at the cursor, each tagged with the pair's operation, and stays within the sequence. The character cursor advances by exactly the run's width. |
| ElementDiff.Step | src/utils/textComparison.js:123-168 | Under either guard, one pair keeps the cursors in bounds and only appends to the output, one unit per index step. An equal or insert pair never moves `leftIndex`, and a delete pair leaves both right cursors alone. An equal pair moves `leftCharIndex` by the pair's length, and an insert pair leaves it alone. A pair with empty text emits nothing and moves no index. |
| ElementDiff.Run | src/utils/textComparison.js:115-169 | After any prefix of the script, `leftIndex <= |left|` and `rightIndex <= |right|`. |
| ElementDiff.RunInvariant | src/utils/textComparison.js:115-169 | After any script: the equal and insert units emitted are exactly the first `rightIndex` right units, in order. The deleted units are exactly the first `leftIndex` left units, in order. So no unit of either document is emitted twice from that document. The output length is `leftIndex + rightIndex`. Every unit follows the tagging rule. `rightCharIndex` is the width of the consumed right units, and `leftCharIndex` is the width of the consumed left units plus the total length of the equal pairs. |
| ElementDiff.AsWrittenDrains | src/utils/textComparison.js:125-135 | With the guard as written, a pair with non-empty text moves its side's index to the end of the sequence, and a pair with empty text leaves it in place. |
| ElementDiff.ConsumeLoop | src/utils/textComparison.js:125-136 | The `while` loop with the literal guard computes `Consume`. A non-empty pair emits every remaining unit of its side, in order. An empty pair emits nothing and moves neither cursor. |
| ElementDiff.CreateElementDiff | src/utils/textComparison.js:102-172 | The mapper's loops compute `Run`. The output has at most `|left| + |right|` units, all tagged by the tagging rule. Its right-side units form a prefix of `right` and its deleted units a prefix of `left`, so each unit of either document appears at most once from that document, in its original order. |
| DrainForm.AsWrittenIsTwoBlocks | src/utils/textComparison.js:120-169 | Closed form of the as-written output. All right units are tagged with the operation of the first non-empty equal or insert pair. All left units are tagged delete if some delete pair is non-empty. The two blocks appear in the order of those pairs, and every other pair emits nothing. |
| DrainForm.StepAsWritten | src/utils/textComparison.js:123-167 | An equal pair never takes left units and moves `leftCharIndex` by its length. An insert pair leaves both left cursors alone, and a delete pair leaves both right cursors alone. An empty pair emits nothing and moves no index. A non-empty pair emits the rest of its side and ends with that side's index at the end. |
| DrainForm.BothEmpty | src/utils/textComparison.js:115-171 | Two empty unit sequences give an empty output for every script. |
| DrainForm.NoEditsAllEqual | src/utils/textComparison.js:123-137 | A script with no insert or delete pairs produces only `equal` units. |
| DrainForm.UnchangedDocument | src/utils/textComparison.js:123-137 | A script of equal pairs with some text outputs every right unit as `equal`, in order, and the summary counts no change. |
| DrainForm.InsertedDocument | src/utils/textComparison.js:138-152 | For an edit script from an empty left document to a right one with text, the output is every right unit as `insert`, in order. The summary is `additions = |right|`, `deletions = 0`. |
| DrainForm.DeletedDocument | src/utils/textComparison.js:153-167 | For an edit script from a left document with text to an empty right one, the output is every left unit as `delete`, in order, with no equal or insert unit. The summary is `deletions = |left|`, `additions = 0`. |
| DrainForm.EmptyTextsEmitNothing | src/utils/textComparison.js:120-169 | If both joined texts are empty, any edit script between them emits nothing, even when the unit sequences are not empty. |
| Summary.Tally | src/utils/textComparison.js:260-266 | The fold counts the occurrences of `insert` and of `delete` among the operations. The two counts together never exceed the number of units. |
| Summary.CalculateSummary | src/utils/textComparison.js:253-271 | `additions` is the number of inserted units and `deletions` the number of deleted units. `changes = additions + deletions`, which is at most the number of units. |
| Summary.SummaryOfTagged | src/utils/textComparison.js:260-268 | A run tagged with one operation counts each of its units once, under that operation only. |
| Summary.SummaryAppend | src/utils/textComparison.js:260-266 | The counts of a concatenation are the sums of the counts of its parts. |
| Render.RenderHtmlDifferences | src/utils/textComparison.js:274-278 | A null or empty list renders as `""`. A one-entry list renders as that entry's content, or `""` when the content is missing. |
| Render.RenderAppend | src/utils/textComparison.js:277 | Rendering a concatenation gives the concatenation of the renderings, so the output is the entries' contents in order with nothing between them. |
| Render.RenderAt | src/utils/textComparison.js:277 | Entry `k`'s content (or `""`) sits in the output between the rendering of the entries before it and the rendering of those after it. |
| ElementDiff.IntendedCoversSpan | src/utils/textComparison.js:125-136 | With the corrected guard, a pair of length L takes the shortest run from the cursor whose width reaches L. Either the run reaches L or it ends the sequence, and without its last unit it is still short of L. |
| AlignedDiff.AlignedStep | src/utils/textComparison.js:123-168 | The corrected pair step keeps the cursors in bounds and only appends to the output. A delete pair does not move `rightIndex`, an insert pair does not move `leftIndex`, and neither index ever moves back. |
| AlignedDiff.AlignedEqualLeft | src/utils/textComparison.js:137 | Unlike the code at line 137, which moves only `leftCharIndex`, a corrected equal pair moves `leftIndex` past the shortest run of left units whose width covers the pair's text, or past every remaining unit when they do not cover it. `leftCharIndex` moves by exactly that run's width. Like the code, it emits nothing from the left document. |
| AlignedDiff.AlignedEqualRight | src/utils/textComparison.js:123-136 | A corrected equal pair emits, in order, the shortest run of right units from the cursor whose width covers the pair's text, or every remaining unit when they do not cover it. |
| AlignedDiff.AlignedRunInvariant | src/utils/textComparison.js:137-167 | With both corrections, after any script the right-side units emitted are exactly the first `rightIndex` right units, in order. Every deleted unit is one of the first `leftIndex` left units, none more often than it occurs there. Each character cursor equals the width of the units passed on its side, with nothing extra for equal pairs. |
| Findings.AsWrittenMissesInsertion | src/utils/textComparison.js:125 | For the two-paragraph example below, with the guard as written, the script is an edit script between the joined texts. All four right units come out `equal`, and `additions = 0`. |
| Findings.IntendedFindsInsertion | src/utils/textComparison.js:125 | The same example with the corrected guard: the kept paragraph and its text are `equal`, the new paragraph and its text are `insert`, and `additions = 2`. |
| Findings.MatchedUnitDeleted | src/utils/textComparison.js:137 | For the removal example below, the script is an edit script between the joined texts. With the guard as written, unit "a" is output both `equal` and `delete`, followed by "b" as `delete`. With only the guard corrected, "a" is output `equal` and then `delete`, and "b" is missing. |
| Findings.AlignedDeletesRemovedUnit | src/utils/textComparison.js:137 | On the removal example the fully corrected mapper outputs "a" as `equal` and "b" as `delete`, and nothing else. |

## Findings

| source | as written | input that shows it | evidently intended | confidence | as-written member | corrected member |
|---|---|---|---|---|---|---|
| src/utils/textComparison.js:125 (same guard at 140 and 155) | The inner loop guard is `rightCharIndex < rightCharIndex + textLength`. This holds for every non-empty pair, so the first non-empty equal or insert pair takes every remaining right unit. | left `<p>ab</p>`, with units [p "ab", text "ab"]. Right `<p>ab</p><p>xy</p>`, with units [p "ab", text "ab", p "xy", text "xy"]. Script `[equal "ab\nab", insert "\nxy\nxy"]`. The equal pair emits all four right units as `equal`, so the added paragraph is not highlighted and `additions = 0`. | Take units only until their accumulated width reaches the pair's length: compare the cursor with its value at the start of the pair plus the length. The new paragraph and its text are then `insert`, and `additions = 2`. | high; not executed | Findings.AsWrittenMissesInsertion | ElementDiff.IntendedCoversSpan |
| src/utils/textComparison.js:137 (with 153-155) | An equal pair adds its length to `leftCharIndex` but never moves `leftIndex`. A later delete pair therefore starts at the left units the equal pair matched. | left units with contents ["a", "b"], right units ["a"], script `[equal "a", delete "\nb"]`. As written, "a" is output both `equal` and `delete`, and "b" as `delete`. With only the guard corrected, "a" is output `delete` and "b" is not output at all. | An equal pair also advances `leftIndex` past the left units its text covers, without emitting them. The output is then "a" `equal` and "b" `delete`. | high; not executed | Findings.MatchedUnitDeleted | AlignedDiff.AlignedEqualLeft |

The corrected guard is the `Intended` mode of `ElementDiff.Consume`, `Step`
and `Run`. It repairs only the first defect. `AlignedDiff` uses the
corrected guard and also moves `leftIndex` on equal pairs, so it repairs
both. `ElementDiff.RunInvariant` covers both guards. `Summary` and `Render`
take any classified sequence, so they apply to the corrected output as
well. Because the code keeps its guard, the method `CreateElementDiff` and
the `DrainForm` lemmas describe the as-written mode.

## Left out

- `parseHtmlIntoElements` and `getElementAttributes` (lines 41-99) rely on
  the browser's `DOMParser` and `TreeWalker`. Unit sequences are inputs to
  the model instead.
- `diff_main` and `diff_cleanupSemantic` (lines 111-112) come from the
  external diff-match-patch library. The edit script is an input.
  `IsEditScript` states the library's contract wherever a lemma needs it.
- `generateHighlightedModified` (lines 175-250) builds DOM nodes and
  mutates their styles. It is presentation only.
- `compareHtmlDocuments` (lines 4-38): the async wrapper, the logging, the
  `"Failed to compare documents: "` re-throw, and the result object
  assembly.
- The `if (element)` checks and `element ? … : 0` at lines 127-134,
  142-150 and 157-165 are not modelled. A null or undefined entry would
  already make the `map(el => el.content)` at line 107 throw. Other falsy
  entries (`0`, `false`, `""`) do not throw there, and the loops would skip
  them without moving the character cursor. The extractor only produces
  objects, so units in the model are always objects.
- Classified units keep the input unit as a field (`unit`) rather than as
  spread-out properties. The pushed literal's `operation` and
  `highlighted` keys, and on insert and delete its `highlightType`,
  override an input's own properties of those names. On an equal unit an
  input's own `highlightType` would survive. The extractor never produces
  such a property.
- Cursors and lengths are unbounded naturals. JavaScript numbers are exact
  up to 2^53, which no document reaches.
- Render.RenderHtmlDifferences: entry contents are strings or missing. The
  `||` fallback for other falsy values (`0`, `false`) is not modelled, and
  neither is the throw on a null entry.
- Lengths: JavaScript's `.length` counts UTF-16 code units, and Dafny's
  `|s|` counts characters, so the two differ on text outside the Basic
  Multilingual Plane. The as-written output depends on a pair's length only
  through whether it is positive, so this does not affect it. The
  corrected modes count widths in the model's characters.

=== FILE: aligned_diff.dfy ===
/** The mapper with both of its cursor defects corrected.

    Besides the loop guard, the implementation never moves `leftIndex` on an
    equal pair: it advances `leftCharIndex` by the pair's length but leaves
    the unit cursor where it was, so the left units an equal pair matched
    are still ahead of the next delete pair, which then reports them as
    removed. Here an equal pair also passes over the left units its text
    covers, by the corrected guard, without emitting them, so each side's
    character cursor always sits at the boundary of the units consumed on
    that side. */
module AlignedDiff {
  import opened Units
  import opened EditScript
  import opened ElementDiff

  /** One pair, corrected: the `Intended` guard, and an equal pair also
      consumes, silently, the left units its text covers. */
  function AlignedStep(left: seq<Unit>, right: seq<Unit>, s: State, e: Edit): (t: State)
    requires InBounds(s.cur, left, right)
    ensures InBounds(t.cur, left, right)
    ensures s.diff <= t.diff
    ensures e.op == Delete ==> t.cur.rightIndex == s.cur.rightIndex
    ensures e.op == Insert ==> t.cur.leftIndex == s.cur.leftIndex
    ensures s.cur.leftIndex <= t.cur.leftIndex && s.cur.rightIndex <= t.cur.rightIndex
  {
    var t := Step(Intended, left, right, s, e);
    if e.op == Equal then
      var c := s.cur;
      var matched := Consume(Intended, left, c.leftIndex, c.leftCharIndex, c.leftCharIndex, |e.text|, Equal);
      State(t.diff, t.cur.(leftIndex := matched.index, leftCharIndex := matched.charIndex))
    else t
  }

  /** What the correction does to an equal pair on the left side: it
      emits nothing from the left document and passes over the shortest
      run of left units, from the cursor, whose width covers the pair's
      text (or every remaining unit, when they do not cover it); the left
      character cursor moves by exactly the run's width. */
  lemma AlignedEqualLeft(left: seq<Unit>, right: seq<Unit>, s: State, e: Edit)
    requires InBounds(s.cur, left, right)
    requires e.op == Equal
    ensures var t := AlignedStep(left, right, s, e);
      var i := s.cur.leftIndex;
      var n := t.cur.leftIndex;
      && FromLeft(t.diff) == FromLeft(s.diff)
      && t.cur.leftCharIndex == s.cur.leftCharIndex + Width(left[i..n])
      && (n == |left| || Width(left[i..n]) >= |e.text|)
      && (n == i || Width(left[i..n - 1]) < |e.text|)
  {
    var c := s.cur;
    IntendedCoversSpan(left, c.leftIndex, c.leftCharIndex, |e.text|, Equal);
    var r := Consume(Intended, right, c.rightIndex, c.rightCharIndex, c.rightCharIndex, |e.text|, Equal);
    RunExtends(right, c.rightIndex, r.index, Equal, s.diff);
  }

  /** A corrected equal pair emits what the corrected inner loop over the
      right units emits, and leaves the right cursor where that loop stops. */
  lemma AlignedEqualEmits(left: seq<Unit>, right: seq<Unit>, s: State, e: Edit)
    requires InBounds(s.cur, left, right)
    requires e.op == Equal
    ensures var r := Consume(Intended, right, s.cur.rightIndex, s.cur.rightCharIndex, s.cur.rightCharIndex, |e.text|, Equal);
      var t := AlignedStep(left, right, s, e);
      t.diff == s.diff + r.emitted && t.cur.rightIndex == r.index
  {
  }

  /** The same equal pair on the right side: it emits, in order and as
      equal, the shortest run of right units from the cursor whose width
      covers the pair's text (or every remaining unit). */
  lemma AlignedEqualRight(left: seq<Unit>, right: seq<Unit>, s: State, e: Edit)
    requires InBounds(s.cur, left, right)
    requires e.op == Equal
    ensures var t := AlignedStep(left, right, s, e);
      var j := s.cur.rightIndex;
      var m := t.cur.rightIndex;
      && FromRight(t.diff) == FromRight(s.diff) + right[j..m]
      && (m == |right| || Width(right[j..m]) >= |e.text|)
      && (m == j || Width(right[j..m - 1]) < |e.text|)
  {
    var c := s.cur;
    var r := Consume(Intended, right, c.rightIndex, c.rightCharIndex, c.rightCharIndex, |e.text|, Equal);
    AlignedEqualEmits(left, right, s, e);
    IntendedCoversSpan(right, c.rightIndex, c.rightCharIndex, |e.text|, Equal);
    RunExtends(right, c.rightIndex, r.index, Equal, s.diff);
  }

  /** The corrected mapper after the pairs of `script`, in order. */
  function AlignedRun(left: seq<Unit>, right: seq<Unit>, script: seq<Edit>): (s: State)
    ensures InBounds(s.cur, left, right)
  {
    if |script| == 0 then Start
    else AlignedStep(left, right, AlignedRun(left, right, script[..|script| - 1]), script[|script| - 1])
  }

  /** The corrected bookkeeping: the right-side units emitted are exactly
      the first `rightIndex` right units, in order; every deleted unit is
      one of the first `leftIndex` left units, none deleted more often than
      it occurs there; every unit follows the tagging rule; and each
      character cursor is exactly the width of the units consumed on its
      side, with nothing added for equal pairs. */
  predicate Aligned(s: State, left: seq<Unit>, right: seq<Unit>)
  {
    && s.cur.leftIndex <= |left| && s.cur.rightIndex <= |right|
    && FromRight(s.diff) == right[..s.cur.rightIndex]
    && multiset(FromLeft(s.diff)) <= multiset(left[..s.cur.leftIndex])
    && |s.diff| <= s.cur.leftIndex + s.cur.rightIndex
    && (forall k :: 0 <= k < |s.diff| ==> WellTagged(s.diff[k]))
    && s.cur.rightCharIndex == Width(right[..s.cur.rightIndex])
    && s.cur.leftCharIndex == Width(left[..s.cur.leftIndex])
  }

  lemma AlignedStepKeeps(left: seq<Unit>, right: seq<Unit>, p: State, e: Edit)
    requires Aligned(p, left, right)
    ensures Aligned(AlignedStep(left, right, p, e), left, right)
  {
    var c := p.cur;
    var t := AlignedStep(left, right, p, e);
    if e.op == Delete {
      var r := Consume(Intended, left, c.leftIndex, c.leftCharIndex, c.leftCharIndex, |e.text|, Delete);
      RunExtends(left, c.leftIndex, r.index, Delete, p.diff);
      assert FromLeft(t.diff) == FromLeft(p.diff) + left[c.leftIndex..r.index];
      assert multiset(left[..r.index]) == multiset(left[..c.leftIndex]) + multiset(left[c.leftIndex..r.index]);
    } else {
      var r := Consume(Intended, right, c.rightIndex, c.rightCharIndex, c.rightCharIndex, |e.text|, e.op);
      RunExtends(right, c.rightIndex, r.index, e.op, p.diff);
      if e.op == Equal {
        var m := Consume(Intended, left, c.leftIndex, c.leftCharIndex, c.leftCharIndex, |e.text|, Equal);
        RunExtends(left, c.leftIndex, m.index, Equal, []);
        assert multiset(left[..m.index]) == multiset(left[..c.leftIndex]) + multiset(left[c.leftIndex..m.index]);
      }
    }
  }

  /** The corrected mapper keeps `Aligned` after every script. Contrast
      `ElementDiff.RunInvariant`: the implementation's left character cursor
      runs ahead of its unit cursor by the length of every equal pair. */
  lemma {:induction false} AlignedRunInvariant(left: seq<Unit>, right: seq<Unit>, script: seq<Edit>)
    ensures Aligned(AlignedRun(left, right, script), left, right)
    decreases |script|
  {
    if |script| > 0 {
      var prefix := script[..|script| - 1];
      AlignedRunInvariant(left, right, prefix);
      AlignedStepKeeps(left, right, AlignedRun(left, right, prefix), script[|script| - 1]);
    }
  }
}

=== FILE: drain_form.dfy ===
/** What the mapper as written computes, stated without its cursors.

    Because its loop guard holds for every non-empty pair, the first
    non-empty equal or insert pair emits every right unit under its own
    operation and the first non-empty delete pair emits every left unit;
    every other pair emits nothing. The output is therefore at most two
    blocks, in the order of those two pairs. */
module DrainForm {
  import opened Units
  import opened EditScript
  import opened ElementDiff
  import opened Summary

  datatype Side = LeftSide | RightSide

  /** A pair that, as written, drains `side`: a non-empty delete pair drains
      the left units, a non-empty equal or insert pair the right ones. */
  predicate Drains(e: Edit, side: Side)
  {
    |e.text| > 0 && (if side == LeftSide then e.op == Delete else e.op != Delete)
  }

  /** Position of the first pair of `script` that drains `side`, if any. */
  function First(script: seq<Edit>, side: Side): (r: Option<nat>)
    ensures r.Some? ==> r.value < |script| && Drains(script[r.value], side)
    ensures r.Some? ==> forall m :: 0 <= m < r.value ==> !Drains(script[m], side)
    ensures r.None? ==> forall m :: 0 <= m < |script| ==> !Drains(script[m], side)
  {
    if |script| == 0 then None
    else
      var n := |script| - 1;
      assert forall m :: 0 <= m < n ==> script[..n][m] == script[m];
      match First(script[..n], side)
      case Some(k) => Some(k)
      case None => if Drains(script[n], side) then Some(n) else None
  }

  /** The two-block output: every right unit under the operation of the
      first right-draining pair, every left unit as deleted, in the order
      the two draining pairs occur. */
  function Blocks(left: seq<Unit>, right: seq<Unit>, script: seq<Edit>): seq<Classified>
  {
    var rightBlock := if First(script, RightSide).Some? then TagAll(right, script[First(script, RightSide).value].op) else [];
    var leftBlock := if First(script, LeftSide).Some? then TagAll(left, Delete) else [];
    if First(script, RightSide).Some? && First(script, LeftSide).Some? && First(script, LeftSide).value < First(script, RightSide).value
    then leftBlock + rightBlock
    else rightBlock + leftBlock
  }

  /** Extending a script keeps the first draining pair it already had. */
  lemma FirstExtends(script: seq<Edit>, side: Side)
    requires |script| > 0
    ensures var n := |script| - 1;
      First(script, side) == if First(script[..n], side).Some? then First(script[..n], side)
                              else if Drains(script[n], side) then Some(n) else None
  {
  }

  /** `s` holds the two blocks of `script`, and each unit index is at the
      end of its side once a pair has drained it and at the start before. */
  predicate IsTwoBlocks(left: seq<Unit>, right: seq<Unit>, script: seq<Edit>, s: State)
  {
    && s.diff == Blocks(left, right, script)
    && s.cur.rightIndex == (if First(script, RightSide).Some? then |right| else 0)
    && s.cur.leftIndex == (if First(script, LeftSide).Some? then |left| else 0)
  }

  /** The last pair of a script, when it is a delete pair, as written. */
  lemma AsWrittenLeftStep(left: seq<Unit>, right: seq<Unit>, script: seq<Edit>)
    requires |script| > 0 && script[|script| - 1].op == Delete
    ensures var p := Run(AsWritten, left, right, script[..|script| - 1]);
      var t := Run(AsWritten, left, right, script);
      var e := script[|script| - 1];
      && t.cur.rightIndex == p.cur.rightIndex
      && t.cur.leftIndex == (if |e.text| > 0 then |left| else p.cur.leftIndex)
      && t.diff == p.diff + TagAll(left[p.cur.leftIndex..t.cur.leftIndex], Delete)
  {
    var e := script[|script| - 1];
    var c := Run(AsWritten, left, right, script[..|script| - 1]).cur;
    AsWrittenDrains(left, c.leftIndex, c.leftCharIndex, c.leftCharIndex, |e.text|, Delete);
  }

  lemma TwoBlocksAfterDelete(left: seq<Unit>, right: seq<Unit>, script: seq<Edit>)
    requires |script| > 0 && script[|script| - 1].op == Delete
    requires IsTwoBlocks(left, right, script[..|script| - 1], Run(AsWritten, left, right, script[..|script| - 1]))
    ensures IsTwoBlocks(left, right, script, Run(AsWritten, left, right, script))
  {
    var n := |script| - 1;
    var e := script[n];
    var prefix := script[..n];
    FirstExtends(script, LeftSide);
    FirstExtends(script, RightSide);
    var p := Run(AsWritten, left, right, prefix);
    var t := Run(AsWritten, left, right, script);
    AsWrittenLeftStep(left, right, script);
    if |e.text| == 0 || First(prefix, LeftSide).Some? {
      assert left[p.cur.leftIndex..t.cur.leftIndex] == [];
      assert t.diff == p.diff;
    } else {
      assert left[0..|left|] == left;
      LeftBlockArrives(left, right, script);
    }
  }

  /** The first pair that drains the left side appends the left block. */
  lemma LeftBlockArrives(left: seq<Unit>, right: seq<Unit>, script: seq<Edit>)
    requires |script| > 0 && Drains(script[|script| - 1], LeftSide)
    requires First(script[..|script| - 1], LeftSide).None?
    ensures Blocks(left, right, script) == Blocks(left, right, script[..|script| - 1]) + TagAll(left, Delete)
  {
    var n := |script| - 1;
    FirstExtends(script, LeftSide);
    FirstExtends(script, RightSide);
    assert First(script, LeftSide) == Some(n);
    assert First(script, RightSide) == First(script[..n], RightSide);
    var rightBlock := if First(script, RightSide).Some? then TagAll(right, script[First(script, RightSide).value].op) else [];
    if First(script, RightSide).Some? {
      assert script[..n][First(script, RightSide).value] == script[First(script, RightSide).value];
    }
    assert Blocks(left, right, script[..n]) == rightBlock + [];
    assert Blocks(left, right, script) == rightBlock + TagAll(left, Delete);
  }

  /** The last pair of a script, when it is an equal or insert pair, as written. */
  lemma AsWrittenRightStep(left: seq<Unit>, right: seq<Unit>, script: seq<Edit>)
    requires |script| > 0 && script[|script| - 1].op != Delete
    ensures var p := Run(AsWritten, left, right, script[..|script| - 1]);
      var t := Run(AsWritten, left, right, script);
      var e := script[|script| - 1];
      && t.cur.leftIndex == p.cur.leftIndex
      && t.cur.rightIndex == (if |e.text| > 0 then |right| else p.cur.rightIndex)
      && t.diff == p.diff + TagAll(right[p.cur.rightIndex..t.cur.rightIndex], e.op)
  {
    var e := script[|script| - 1];
    var c := Run(AsWritten, left, right, script[..|script| - 1]).cur;
    AsWrittenDrains(right, c.rightIndex, c.rightCharIndex, c.rightCharIndex, |e.text|, e.op);
  }

  lemma TwoBlocksAfterEqualOrInsert(left: seq<Unit>, right: seq<Unit>, script: seq<Edit>)
    requires |script| > 0 && script[|script| - 1].op != Delete
    requires IsTwoBlocks(left, right, script[..|script| - 1], Run(AsWritten, left, right, script[..|script| - 1]))
    ensures IsTwoBlocks(left, right, script, Run(AsWritten, left, right, script))
  {
    var n := |script| - 1;
    var e := script[n];
    var prefix := script[..n];
    FirstExtends(script, LeftSide);
    FirstExtends(script, RightSide);
    var p := Run(AsWritten, left, right, prefix);
    var t := Run(AsWritten, left, right, script);
    AsWrittenRightStep(left, right, script);
    if |e.text| == 0 || First(prefix, RightSide).Some? {
      assert right[p.cur.rightIndex..t.cur.rightIndex] == [];
      assert t.diff == p.diff;
    } else {
      RightBlockArrives(left, right, script, t.diff[|p.diff|..]);
    }
  }

  /** The first pair that drains the right side appends the right block. */
  lemma RightBlockArrives(left: seq<Unit>, right: seq<Unit>, script: seq<Edit>, emitted: seq<Classified>)
    requires |script| > 0 && Drains(script[|script| - 1], RightSide)
    requires First(script[..|script| - 1], RightSide).None?
    requires emitted == TagAll(right[0..|right|], script[|script| - 1].op)
    ensures Blocks(left, right, script) == Blocks(left, right, script[..|script| - 1]) + emitted
  {
    var n := |script| - 1;
    FirstExtends(script, LeftSide);
    FirstExtends(script, RightSide);
    assert First(script, RightSide) == Some(n);
    assert right[0..|right|] == right;
    var leftBlock := if First(script, LeftSide).Some? then TagAll(left, Delete) else [];
    assert Blocks(left, right, script[..n]) == [] + leftBlock;
    if First(script, LeftSide).Some? {
      assert Blocks(left, right, script) == leftBlock + emitted;
    } else {
      assert Blocks(left, right, script) == emitted + [];
    }
  }

  /** The as-written mapper emits exactly the two blocks. */
  lemma {:induction false} AsWrittenIsTwoBlocks(left: seq<Unit>, right: seq<Unit>, script: seq<Edit>)
    ensures IsTwoBlocks(left, right, script, Run(AsWritten, left, right, script))
    decreases |script|
  {
    if |script| > 0 {
      AsWrittenIsTwoBlocks(left, right, script[..|script| - 1]);
      if script[|script| - 1].op == Delete {
        TwoBlocksAfterDelete(left, right, script);
      } else {
        TwoBlocksAfterEqualOrInsert(left, right, script);
      }
    }
  }

  /** The pair-by-pair effect of the guard as written. An equal pair never
      takes left units and moves the left character cursor by its length;
      an insert pair leaves both left cursors alone; a delete pair leaves
      both right cursors alone. A pair with empty text emits nothing and
      moves no index; a non-empty pair emits every remaining unit of its
      side, so that side's index ends at the end of the document. */
  lemma StepAsWritten(left: seq<Unit>, right: seq<Unit>, s: State, e: Edit)
    requires InBounds(s.cur, left, right)
    ensures var t := Step(AsWritten, left, right, s, e); var c := s.cur;
      && (e.op == Equal ==> t.cur.leftIndex == c.leftIndex && t.cur.leftCharIndex == c.leftCharIndex + |e.text|)
      && (e.op == Insert ==> t.cur.leftIndex == c.leftIndex && t.cur.leftCharIndex == c.leftCharIndex)
      && (e.op == Delete ==> t.cur.rightIndex == c.rightIndex && t.cur.rightCharIndex == c.rightCharIndex)
      && (|e.text| == 0 ==> t.diff == s.diff && t.cur.leftIndex == c.leftIndex && t.cur.rightIndex == c.rightIndex)
      && (|e.text| > 0 && e.op == Delete ==>
            t.cur.leftIndex == |left| && t.diff == s.diff + TagAll(left[c.leftIndex..], Delete))
      && (|e.text| > 0 && e.op != Delete ==>
            t.cur.rightIndex == |right| && t.diff == s.diff + TagAll(right[c.rightIndex..], e.op))
  {
    var c := s.cur;
    if e.op == Delete {
      AsWrittenDrains(left, c.leftIndex, c.leftCharIndex, c.leftCharIndex, |e.text|, Delete);
    } else {
      AsWrittenDrains(right, c.rightIndex, c.rightCharIndex, c.rightCharIndex, |e.text|, e.op);
    }
  }

  /** Two empty documents give an empty classification, whatever the script. */
  lemma {:induction false} BothEmpty(script: seq<Edit>)
    ensures Run(AsWritten, [], [], script).diff == []
  {
    RunInvariant(AsWritten, [], [], script);
  }

  /** A script without insert or delete pairs classifies every unit as equal. */
  lemma {:induction false} NoEditsAllEqual(left: seq<Unit>, right: seq<Unit>, script: seq<Edit>)
    requires forall k :: 0 <= k < |script| ==> script[k].op == Equal
    ensures var d := Run(AsWritten, left, right, script).diff;
      forall k :: 0 <= k < |d| ==> d[k].operation == Equal
  {
    AsWrittenIsTwoBlocks(left, right, script);
  }

  /** A script of equal pairs with some text, as the diff engine returns
      for two identical non-empty texts, shows the right document unchanged:
      every right unit, in order, as equal, and no change counted. */
  lemma UnchangedDocument(left: seq<Unit>, right: seq<Unit>, script: seq<Edit>)
    requires forall k :: 0 <= k < |script| ==> script[k].op == Equal
    requires SourceText(script) != ""
    ensures Run(AsWritten, left, right, script).diff == TagAll(right, Equal)
    ensures CalculateSummary(Run(AsWritten, left, right, script).diff).changes == 0
  {
    AsWrittenIsTwoBlocks(left, right, script);
    SourceTextEmpty(script);
    SummaryOfTagged(right, Equal);
  }

  /** An empty left document against a right one with text: the only
      non-empty pairs are inserts, so every right unit, in order, is
      classified as inserted, and nothing as deleted. */
  lemma InsertedDocument(right: seq<Unit>, script: seq<Edit>)
    requires IsEditScript(script, Join([]), Join(right))
    requires Join(right) != ""
    ensures Run(AsWritten, [], right, script).diff == TagAll(right, Insert)
    ensures CalculateSummary(Run(AsWritten, [], right, script).diff) == Stats(|right|, 0, |right|)
  {
    assert Join([]) == "";
    SourceTextEmpty(script);
    TargetTextEmpty(script);
    AsWrittenIsTwoBlocks([], right, script);
    SummaryOfTagged(right, Insert);
  }

  /** A left document with text against an empty right one: every left
      unit, in order, is classified as deleted, and nothing as added. */
  lemma DeletedDocument(left: seq<Unit>, script: seq<Edit>)
    requires IsEditScript(script, Join(left), Join([]))
    requires Join(left) != ""
    ensures Run(AsWritten, left, [], script).diff == TagAll(left, Delete)
    ensures CalculateSummary(Run(AsWritten, left, [], script).diff) == Stats(0, |left|, |left|)
  {
    assert Join([]) == "";
    SourceTextEmpty(script);
    TargetTextEmpty(script);
    AsWrittenIsTwoBlocks(left, [], script);
    SummaryOfTagged(left, Delete);
  }

  /** When both joined texts are empty, every pair of an edit script between
      them is empty, so nothing is emitted: a document whose only unit has
      empty content (an image, say) never appears in the classification. */
  lemma EmptyTextsEmitNothing(left: seq<Unit>, right: seq<Unit>, script: seq<Edit>)
    requires IsEditScript(script, Join(left), Join(right))
    requires Join(left) == "" && Join(right) == ""
    ensures Run(AsWritten, left, right, script).diff == []
  {
    SourceTextEmpty(script);
    TargetTextEmpty(script);
    AsWrittenIsTwoBlocks(left, right, script);
  }
}

=== FILE: edit_script.dfy ===
/** The character-level edit script the mapper consumes, and the classified
    units it produces. The diff engine that computes a script is not part
    of this model: a script is an input. */
module EditScript {
  import opened Units

  /** The three operations of a diff-match-patch edit script. */
  datatype Op = Equal | Insert | Delete

  /** One `[operation, text]` pair of the script. */
  datatype Edit = Edit(op: Op, text: string)

  /** The text a script keeps or removes: the left string it was computed from. */
  function SourceText(script: seq<Edit>): string
  {
    if |script| == 0 then ""
    else (if script[0].op != Insert then script[0].text else "") + SourceText(script[1..])
  }

  /** The text a script keeps or adds: the right string it was computed for. */
  function TargetText(script: seq<Edit>): string
  {
    if |script| == 0 then ""
    else (if script[0].op != Delete then script[0].text else "") + TargetText(script[1..])
  }

  /** `script` is an edit script from `a` to `b`: the contract of the diff engine. */
  predicate IsEditScript(script: seq<Edit>, a: string, b: string)
  {
    SourceText(script) == a && TargetText(script) == b
  }

  /** A source text is empty exactly when every equal and delete pair is empty. */
  lemma {:induction false} SourceTextEmpty(script: seq<Edit>)
    ensures SourceText(script) == "" <==>
      forall k :: 0 <= k < |script| && script[k].op != Insert ==> |script[k].text| == 0
    decreases |script|
  {
    if |script| > 0 {
      SourceTextEmpty(script[1..]);
      assert forall k :: 1 <= k < |script| ==> script[k] == script[1..][k - 1];
    }
  }

  /** A target text is empty exactly when every equal and insert pair is empty. */
  lemma {:induction false} TargetTextEmpty(script: seq<Edit>)
    ensures TargetText(script) == "" <==>
      forall k :: 0 <= k < |script| && script[k].op != Delete ==> |script[k].text| == 0
    decreases |script|
  {
    if |script| > 0 {
      TargetTextEmpty(script[1..]);
      assert forall k :: 1 <= k < |script| ==> script[k] == script[1..][k - 1];
    }
  }

  /** Tag a unit gets when it is highlighted. */
  datatype Highlight = Added | Removed

  /** A unit as the mapper emits it: a copy of the input unit plus the tags
      `operation`, `highlighted` and (for changes) `highlightType`. */
  datatype Classified = Classified(unit: Unit, operation: Op, highlighted: bool, highlightType: Option<Highlight>)

  /** The tagging rule: a unit is highlighted exactly when it is inserted or
      deleted, an insertion is marked added, a deletion removed, and an
      unchanged unit carries no highlight type. */
  predicate WellTagged(c: Classified)
  {
    && (c.highlighted <==> c.operation != Equal)
    && (c.highlightType == Some(Added) <==> c.operation == Insert)
    && (c.highlightType == Some(Removed) <==> c.operation == Delete)
    && (c.highlightType.None? <==> c.operation == Equal)
  }

  /** The object literal the mapper pushes for `unit` under `op`. */
  function Tag(u: Unit, op: Op): (c: Classified)
    ensures c.unit == u && c.operation == op
    ensures WellTagged(c)
  {
    match op
    case Equal => Classified(u, Equal, false, None)
    case Insert => Classified(u, Insert, true, Some(Added))
    case Delete => Classified(u, Delete, true, Some(Removed))
  }

  /** Every unit of `us`, in order, tagged with `op`. */
  function TagAll(us: seq<Unit>, op: Op): (cs: seq<Classified>)
    ensures |cs| == |us|
    ensures forall k :: 0 <= k < |us| ==> cs[k] == Tag(us[k], op)
  {
    seq(|us|, k requires 0 <= k < |us| => Tag(us[k], op))
  }

  lemma TagAllAppend(a: seq<Unit>, b: seq<Unit>, op: Op)
    ensures TagAll(a + b, op) == TagAll(a, op) + TagAll(b, op)
  {
  }

  /** The units of `d` that the right document supplied (equal and insert). */
  function FromRight(d: seq<Classified>): seq<Unit>
  {
    if |d| == 0 then []
    else (if d[0].operation != Delete then [d[0].unit] else []) + FromRight(d[1..])
  }

  /** The units of `d` that the left document supplied (delete). */
  function FromLeft(d: seq<Classified>): seq<Unit>
  {
    if |d| == 0 then []
    else (if d[0].operation == Delete then [d[0].unit] else []) + FromLeft(d[1..])
  }

  lemma {:induction false} FromRightAppend(a: seq<Classified>, b: seq<Classified>)
    ensures FromRight(a + b) == FromRight(a) + FromRight(b)
    decreases |a|
  {
    if |a| == 0 {
      assert a + b == b;
    } else {
      assert (a + b)[0] == a[0];
      assert (a + b)[1..] == a[1..] + b;
      FromRightAppend(a[1..], b);
    }
  }

  lemma {:induction false} FromLeftAppend(a: seq<Classified>, b: seq<Classified>)
    ensures FromLeft(a + b) == FromLeft(a) + FromLeft(b)
    decreases |a|
  {
    if |a| == 0 {
      assert a + b == b;
    } else {
      assert (a + b)[0] == a[0];
      assert (a + b)[1..] == a[1..] + b;
      FromLeftAppend(a[1..], b);
    }
  }

  lemma FromSidesAppend(a: seq<Classified>, b: seq<Classified>)
    ensures FromRight(a + b) == FromRight(a) + FromRight(b)
    ensures FromLeft(a + b) == FromLeft(a) + FromLeft(b)
  {
    FromRightAppend(a, b);
    FromLeftAppend(a, b);
  }

  /** Tagging a run and then taking the side it belongs to gives the run back;
      the other side gets nothing. */
  lemma {:induction false} FromSidesTagAll(us: seq<Unit>, op: Op)
    ensures FromRight(TagAll(us, op)) == (if op != Delete then us else [])
    ensures FromLeft(TagAll(us, op)) == (if op == Delete then us else [])
    decreases |us|
  {
    if |us| > 0 {
      assert TagAll(us, op)[1..] == TagAll(us[1..], op);
      FromSidesTagAll(us[1..], op);
    }
  }
}

=== FILE: element_diff.dfy ===
/** The element diff mapper: walks a character edit script with four cursors
    and emits whole units of the left or right document, each classified as
    equal, insert or delete. */
module ElementDiff {
  import opened Units
  import opened EditScript

  /** How the inner loops decide to take one more unit. `AsWritten` is the
      guard the implementation has, `index < index + length`, re-evaluated on
      the already advanced cursor; `Intended` compares the cursor against the
      end of the pair's span, fixed when the pair starts. */
  datatype Mapper = AsWritten | Intended

  /** The four cursors: a unit index and a character offset per side. */
  datatype Cursor = Cursor(leftIndex: nat, rightIndex: nat, leftCharIndex: nat, rightCharIndex: nat)

  /** The mapper's state between pairs: what it has emitted and where it is. */
  datatype State = State(diff: seq<Classified>, cur: Cursor)

  /** What one inner loop produced: the units it emitted and the cursors it left. */
  datatype Consumed = Consumed(emitted: seq<Classified>, index: nat, charIndex: nat)

  const Start: State := State([], Cursor(0, 0, 0, 0))

  predicate InBounds(cur: Cursor, left: seq<Unit>, right: seq<Unit>)
  {
    cur.leftIndex <= |left| && cur.rightIndex <= |right|
  }

  /** The character part of the inner loop guard. `start` is the character
      cursor when the pair began and `charIndex` its current value. */
  predicate Continues(mode: Mapper, start: nat, charIndex: nat, textLength: nat)
  {
    match mode
    case AsWritten => charIndex < charIndex + textLength
    case Intended => charIndex < start + textLength
  }

  /** One inner `while` loop: take units from `units` starting at index `i`
      while the guard holds and units remain, tagging each with `op` and
      advancing the character cursor past its content and separator.
      Whatever the guard, the loop emits a contiguous run starting at `i`,
      untouched, and the character cursor moves by exactly its width. */
  function Consume(mode: Mapper, units: seq<Unit>, i: nat, start: nat, charIndex: nat, textLength: nat, op: Op): (r: Consumed)
    requires i <= |units|
    ensures i <= r.index <= |units|
    ensures r.emitted == TagAll(units[i..r.index], op)
    ensures r.charIndex == charIndex + Width(units[i..r.index])
    decreases |units| - i
  {
    if Continues(mode, start, charIndex, textLength) && i < |units| then
      var rest := Consume(mode, units, i + 1, start, charIndex + |units[i].content| + 1, textLength, op);
      assert units[i..rest.index] == [units[i]] + units[i + 1..rest.index];
      TagAllAppend([units[i]], units[i + 1..rest.index], op);
      Consumed([Tag(units[i], op)] + rest.emitted, rest.index, rest.charIndex)
    else
      Consumed([], i, charIndex)
  }

  /** Processing one `[operation, text]` pair. An equal or insert pair takes
      units from the right document; a delete pair takes them from the left;
      an equal pair also moves the left character cursor by its length. The
      output only grows, by one unit per index step, the side a pair does
      not read is left alone, and a pair with empty text changes nothing
      but the cursors' character offsets. */
  function Step(mode: Mapper, left: seq<Unit>, right: seq<Unit>, s: State, e: Edit): (t: State)
    requires InBounds(s.cur, left, right)
    ensures InBounds(t.cur, left, right)
    ensures s.diff <= t.diff
    ensures s.cur.leftIndex <= t.cur.leftIndex && s.cur.rightIndex <= t.cur.rightIndex
    ensures |t.diff| - |s.diff| == (t.cur.leftIndex - s.cur.leftIndex) + (t.cur.rightIndex - s.cur.rightIndex)
    ensures e.op != Delete ==> t.cur.leftIndex == s.cur.leftIndex
    ensures e.op == Delete ==> t.cur.rightIndex == s.cur.rightIndex && t.cur.rightCharIndex == s.cur.rightCharIndex
    ensures e.op == Equal ==> t.cur.leftCharIndex == s.cur.leftCharIndex + |e.text|
    ensures e.op == Insert ==> t.cur.leftCharIndex == s.cur.leftCharIndex
    ensures |e.text| == 0 ==> t.diff == s.diff && t.cur.leftIndex == s.cur.leftIndex && t.cur.rightIndex == s.cur.rightIndex
  {
    var c := s.cur;
    match e.op
    case Equal =>
      var r := Consume(mode, right, c.rightIndex, c.rightCharIndex, c.rightCharIndex, |e.text|, Equal);
      State(s.diff + r.emitted, c.(rightIndex := r.index, rightCharIndex := r.charIndex, leftCharIndex := c.leftCharIndex + |e.text|))
    case Insert =>
      var r := Consume(mode, right, c.rightIndex, c.rightCharIndex, c.rightCharIndex, |e.text|, Insert);
      State(s.diff + r.emitted, c.(rightIndex := r.index, rightCharIndex := r.charIndex))
    case Delete =>
      var r := Consume(mode, left, c.leftIndex, c.leftCharIndex, c.leftCharIndex, |e.text|, Delete);
      State(s.diff + r.emitted, c.(leftIndex := r.index, leftCharIndex := r.charIndex))
  }

  /** The mapper after the pairs of `script`, in order (the outer `for` loop). */
  function Run(mode: Mapper, left: seq<Unit>, right: seq<Unit>, script: seq<Edit>): (s: State)
    ensures InBounds(s.cur, left, right)
  {
    if |script| == 0 then Start
    else Step(mode, left, right, Run(mode, left, right, script[..|script| - 1]), script[|script| - 1])
  }

  /** The summed length of the equal pairs of a script. */
  function EqualLength(script: seq<Edit>): nat
  {
    if |script| == 0 then 0
    else EqualLength(script[..|script| - 1]) + (if script[|script| - 1].op == Equal then |script[|script| - 1].text| else 0)
  }

  /** The bookkeeping the mapper keeps, whichever guard it uses: the cursors
      stay within the documents; the right-side units emitted (equal and
      insert) are exactly the first `rightIndex` right units in order, and
      the deleted units exactly the first `leftIndex` left units in order, so
      no unit is emitted twice or out of order; every unit is tagged by the
      tagging rule; and each character cursor is the width of the units
      consumed on its side, plus, on the left, `equalLength` characters. */
  predicate Bookkept(s: State, left: seq<Unit>, right: seq<Unit>, equalLength: nat)
  {
    && s.cur.leftIndex <= |left| && s.cur.rightIndex <= |right|
    && FromRight(s.diff) == right[..s.cur.rightIndex]
    && FromLeft(s.diff) == left[..s.cur.leftIndex]
    && |s.diff| == s.cur.leftIndex + s.cur.rightIndex
    && (forall k :: 0 <= k < |s.diff| ==> WellTagged(s.diff[k]))
    && s.cur.rightCharIndex == Width(right[..s.cur.rightIndex])
    && s.cur.leftCharIndex == Width(left[..s.cur.leftIndex]) + equalLength
  }

  /** Appending a run `units[i..j]`, tagged with `op`, to one side keeps
      the side's bookkeeping. */
  lemma RunExtends(units: seq<Unit>, i: nat, j: nat, op: Op, d: seq<Classified>)
    requires i <= j <= |units|
    ensures FromRight(d + TagAll(units[i..j], op)) == FromRight(d) + (if op != Delete then units[i..j] else [])
    ensures FromLeft(d + TagAll(units[i..j], op)) == FromLeft(d) + (if op == Delete then units[i..j] else [])
    ensures units[..j] == units[..i] + units[i..j]
    ensures Width(units[..j]) == Width(units[..i]) + Width(units[i..j])
  {
    FromSidesAppend(d, TagAll(units[i..j], op));
    FromSidesTagAll(units[i..j], op);
    assert units[..j] == units[..i] + units[i..j];
    WidthAppend(units[..i], units[i..j]);
  }

  lemma StepKeeps(mode: Mapper, left: seq<Unit>, right: seq<Unit>, p: State, e: Edit, equalLength: nat)
    requires Bookkept(p, left, right, equalLength)
    ensures Bookkept(Step(mode, left, right, p, e), left, right, equalLength + (if e.op == Equal then |e.text| else 0))
  {
    var c := p.cur;
    if e.op == Delete {
      var r := Consume(mode, left, c.leftIndex, c.leftCharIndex, c.leftCharIndex, |e.text|, Delete);
      RunExtends(left, c.leftIndex, r.index, Delete, p.diff);
    } else {
      var r := Consume(mode, right, c.rightIndex, c.rightCharIndex, c.rightCharIndex, |e.text|, e.op);
      RunExtends(right, c.rightIndex, r.index, e.op, p.diff);
    }
  }

  lemma {:induction false} RunInvariant(mode: Mapper, left: seq<Unit>, right: seq<Unit>, script: seq<Edit>)
    ensures Bookkept(Run(mode, left, right, script), left, right, EqualLength(script))
    decreases |script|
  {
    if |script| > 0 {
      var prefix := script[..|script| - 1];
      RunInvariant(mode, left, right, prefix);
      StepKeeps(mode, left, right, Run(mode, left, right, prefix), script[|script| - 1], EqualLength(prefix));
    }
  }

  /** With the guard as written, `charIndex < charIndex + textLength` holds
      exactly when the pair's text is non-empty, whatever the cursor: a
      non-empty pair drains every remaining unit of its side, and an empty
      pair takes none. */
  lemma {:induction false} AsWrittenDrains(units: seq<Unit>, i: nat, start: nat, charIndex: nat, textLength: nat, op: Op)
    requires i <= |units|
    ensures var r := Consume(AsWritten, units, i, start, charIndex, textLength, op);
      r.index == if textLength > 0 then |units| else i
    decreases |units| - i
  {
    if textLength > 0 && i < |units| {
      AsWrittenDrains(units, i + 1, start, charIndex + |units[i].content| + 1, textLength, op);
    }
  }

  /** One inner `while` loop of the mapper with its guard exactly as
      written: it takes units from index `i` on while
      `charIndex < charIndex + textLength` and units remain. A non-empty
      pair drains the rest of the side; an empty one takes nothing. */
  method ConsumeLoop(units: seq<Unit>, i: nat, charIndex: nat, textLength: nat, op: Op)
    returns (emitted: seq<Classified>, index: nat, charIndexOut: nat)
    requires i <= |units|
    ensures Consumed(emitted, index, charIndexOut) == Consume(AsWritten, units, i, charIndex, charIndex, textLength, op)
    ensures textLength > 0 ==> index == |units| && emitted == TagAll(units[i..], op)
    ensures textLength == 0 ==> index == i && emitted == [] && charIndexOut == charIndex
  {
    emitted, index, charIndexOut := [], i, charIndex;
    while charIndexOut < charIndexOut + textLength && index < |units|
      invariant i <= index <= |units|
      invariant emitted == TagAll(units[i..index], op)
      invariant charIndexOut == charIndex + Width(units[i..index])
      invariant textLength == 0 ==> index == i
      decreases |units| - index
    {
      var element := units[index];
      assert units[i..index + 1] == units[i..index] + [element];
      WidthAppend(units[i..index], [element]);
      TagAllAppend(units[i..index], [element], op);
      assert TagAll([element], op) == [Tag(element, op)];
      emitted := emitted + [Tag(element, op)];
      charIndexOut := charIndexOut + |element.content| + 1;
      index := index + 1;
    }
    AsWrittenDrains(units, i, charIndex, charIndex, textLength, op);
    ghost var r := Consume(AsWritten, units, i, charIndex, charIndex, textLength, op);
    assert index == r.index;
  }

  /** The mapper's outer `for` loop over the pairs, with the three inner
      loops as written. It computes the functional model, and what it emits
      is a tagged, order-preserving selection of the input units: at most
      every unit of both documents, each at most once. */
  method CreateElementDiff(left: seq<Unit>, right: seq<Unit>, script: seq<Edit>) returns (diff: seq<Classified>)
    ensures |diff| <= |left| + |right|
    ensures forall k :: 0 <= k < |diff| ==> WellTagged(diff[k])
    ensures FromRight(diff) <= right
    ensures FromLeft(diff) <= left
    ensures diff == Run(AsWritten, left, right, script).diff
  {
    diff := [];
    var leftIndex: nat, rightIndex: nat, leftCharIndex: nat, rightCharIndex: nat := 0, 0, 0, 0;
    for n := 0 to |script|
      invariant Run(AsWritten, left, right, script[..n]) == State(diff, Cursor(leftIndex, rightIndex, leftCharIndex, rightCharIndex))
    {
      assert script[..n + 1][..n] == script[..n];
      var operation, text := script[n].op, script[n].text;
      var textLength := |text|;
      var emitted;
      if operation == Equal {
        emitted, rightIndex, rightCharIndex := ConsumeLoop(right, rightIndex, rightCharIndex, textLength, Equal);
        leftCharIndex := leftCharIndex + textLength;
      } else if operation == Insert {
        emitted, rightIndex, rightCharIndex := ConsumeLoop(right, rightIndex, rightCharIndex, textLength, Insert);
      } else {
        emitted, leftIndex, leftCharIndex := ConsumeLoop(left, leftIndex, leftCharIndex, textLength, Delete);
      }
      diff := diff + emitted;
    }
    assert script[..|script|] == script;
    RunInvariant(AsWritten, left, right, script);
  }

  /** A run's width is its first unit's share plus the width of the rest. */
  lemma WidthCons(units: seq<Unit>, i: nat, j: nat)
    requires i < j <= |units|
    ensures Width(units[i..j]) == |units[i].content| + 1 + Width(units[i + 1..j])
  {
    assert units[i..j][1..] == units[i + 1..j];
  }

  /** If the cursor is short of `bound` before unit `i`, and, unless unit
      `i` is the last one taken, also before unit `n - 1`, then the run
      without its last unit is short of `bound`. */
  lemma ShortBeforeLast(units: seq<Unit>, i: nat, n: nat, charIndex: nat, bound: int)
    requires i < n <= |units|
    requires charIndex < bound
    requires n == i + 1 || charIndex + |units[i].content| + 1 + Width(units[i + 1..n - 1]) < bound
    ensures charIndex + Width(units[i..n - 1]) < bound
  {
    if n == i + 1 {
      assert units[i..n - 1] == [];
    } else {
      WidthCons(units, i, n - 1);
    }
  }

  /** Where an inner loop stops: the index part of `Consume`, without the
      units it emits. */
  function Reach(mode: Mapper, units: seq<Unit>, i: nat, start: nat, charIndex: nat, textLength: nat): (n: nat)
    requires i <= |units|
    ensures i <= n <= |units|
    decreases |units| - i
  {
    if Continues(mode, start, charIndex, textLength) && i < |units| then
      Reach(mode, units, i + 1, start, charIndex + |units[i].content| + 1, textLength)
    else i
  }

  /** `Reach` is exactly where `Consume` stops. */
  lemma {:induction false} ConsumeReach(mode: Mapper, units: seq<Unit>, i: nat, start: nat, charIndex: nat, textLength: nat, op: Op)
    requires i <= |units|
    ensures Consume(mode, units, i, start, charIndex, textLength, op).index == Reach(mode, units, i, start, charIndex, textLength)
    decreases |units| - i
  {
    if Continues(mode, start, charIndex, textLength) && i < |units| {
      ConsumeReach(mode, units, i + 1, start, charIndex + |units[i].content| + 1, textLength, op);
    }
  }

  /** The corrected loop stops only when its run covers the pair or the
      units run out. */
  lemma {:induction false} IntendedCovers(units: seq<Unit>, i: nat, start: nat, charIndex: nat, textLength: nat)
    requires i <= |units|
    ensures var n := Reach(Intended, units, i, start, charIndex, textLength);
      n == |units| || charIndex + Width(units[i..n]) >= start + textLength
    decreases |units| - i
  {
    if charIndex < start + textLength && i < |units| {
      var next := charIndex + |units[i].content| + 1;
      IntendedCovers(units, i + 1, start, next, textLength);
      WidthCons(units, i, Reach(Intended, units, i + 1, start, next, textLength));
    } else {
      assert units[i..i] == [];
    }
  }

  /** The corrected loop takes a unit only while the cursor, just before
      that unit, is still short of the pair's end. */
  lemma {:induction false} IntendedStopsEarly(units: seq<Unit>, i: nat, start: nat, charIndex: nat, textLength: nat)
    requires i <= |units|
    ensures var n := Reach(Intended, units, i, start, charIndex, textLength);
      n == i || charIndex + Width(units[i..n - 1]) < start + textLength
    decreases |units| - i
  {
    if charIndex < start + textLength && i < |units| {
      var next := charIndex + |units[i].content| + 1;
      IntendedStopsEarly(units, i + 1, start, next, textLength);
      ShortBeforeLast(units, i, Reach(Intended, units, i + 1, start, next, textLength), charIndex, start + textLength);
    }
  }

  /** With the corrected guard a pair of text length L takes the shortest
      run of units from the cursor whose width reaches L: the run either
      reaches L or ends the document, and without its last unit it is
      still short of L. So a pair takes nothing when L is 0, at least one
      unit when L is positive and units remain, and never drains the side
      merely because its text is non-empty. */
  lemma IntendedCoversSpan(units: seq<Unit>, i: nat, charIndex: nat, textLength: nat, op: Op)
    requires i <= |units|
    ensures var r := Consume(Intended, units, i, charIndex, charIndex, textLength, op);
      && r.emitted == TagAll(units[i..r.index], op)
      && (r.index == |units| || Width(units[i..r.index]) >= textLength)
      && (r.index == i || Width(units[i..r.index - 1]) < textLength)
  {
    ConsumeReach(Intended, units, i, charIndex, charIndex, textLength, op);
    IntendedCovers(units, i, charIndex, charIndex, textLength);
    IntendedStopsEarly(units, i, charIndex, charIndex, textLength);
  }
}

=== FILE: findings.dfy ===
/** Two defects of the mapper, each shown on a concrete input, together
    with what the corrected mapper does on the same input.

    The inner loop guard `charIndex < charIndex + textLength` compares the
    cursor with itself plus the pair's length, so it holds for every
    non-empty pair and the pair takes every remaining unit of its side. The
    evident intent is to take units only until their accumulated width
    covers the pair's text: the `Intended` mode of the mapper. The first
    example is a one-paragraph document that gains a second paragraph.

    An equal pair moves `leftCharIndex` but never `leftIndex`, so a later
    delete pair starts at the left units the equal pair matched and
    reports them as removed. The `Intended` guard alone does not repair
    this; `AlignedDiff` corrects both. The second example is a two-unit
    document that loses its second unit. */
module Findings {
  import opened Units
  import opened EditScript
  import opened ElementDiff
  import opened Summary
  import opened AlignedDiff
  import opened DrainForm

  /** The units of `<p>ab</p>` and `<p>ab</p><p>xy</p>`: every element and,
      after it, its non-blank text node, whose content is the same text. */
  const Para1: Unit := Unit(0, Element("p", map[], 0), "ab", "<p>ab</p>")
  const Text1: Unit := Unit(1, Text(Some("p")), "ab", "ab")
  const Para2: Unit := Unit(2, Element("p", map[], 0), "xy", "<p>xy</p>")
  const Text2: Unit := Unit(3, Text(Some("p")), "xy", "xy")

  const OldDoc: seq<Unit> := [Para1, Text1]
  const NewDoc: seq<Unit> := [Para1, Text1, Para2, Text2]

  /** An edit script from "ab\nab" to "ab\nab\nxy\nxy". */
  const Script: seq<Edit> := [Edit(Equal, "ab\nab"), Edit(Insert, "\nxy\nxy")]

  lemma JoinedOldDoc()
    ensures Join(OldDoc) == "ab\nab"
  {
    assert Contents(OldDoc) == ["ab", "ab"];
    assert Contents(OldDoc)[1..] == ["ab"];
    assert JoinLines(Contents(OldDoc)[1..]) == "ab";
  }

  lemma JoinedNewDoc()
    ensures Join(NewDoc) == "ab\nab\nxy\nxy"
  {
    var cs := Contents(NewDoc);
    assert cs == ["ab", "ab", "xy", "xy"];
    JoinedFour(cs);
  }

  lemma JoinedFour(cs: seq<string>)
    requires cs == ["ab", "ab", "xy", "xy"]
    ensures JoinLines(cs) == "ab\nab\nxy\nxy"
  {
    assert cs[1..] == ["ab", "xy", "xy"];
    assert cs[1..][1..] == ["xy", "xy"];
    assert cs[1..][1..][1..] == ["xy"];
    assert JoinLines(cs[1..][1..]) == "xy" + "\n" + "xy";
    assert JoinLines(cs[1..]) == "ab" + "\n" + "xy\nxy";
  }

  lemma ScriptFitsDocuments()
    ensures IsEditScript(Script, Join(OldDoc), Join(NewDoc))
  {
    assert Script[1..][1..] == [];
    assert SourceText(Script[1..]) == "";
    assert TargetText(Script[1..]) == "\nxy\nxy";
    JoinedOldDoc();
    JoinedNewDoc();
  }

  /** A two-pair script runs as two steps from the start state. */
  lemma TwoSteps(mode: Mapper, left: seq<Unit>, right: seq<Unit>, script: seq<Edit>)
    requires |script| == 2
    ensures Run(mode, left, right, script[..1]) == Step(mode, left, right, Start, script[0])
    ensures Run(mode, left, right, script) ==
      Step(mode, left, right, Step(mode, left, right, Start, script[0]), script[1])
  {
    assert script[..1][..0] == [];
    assert script[..1][0] == script[0];
  }

  lemma InsertionAsWrittenCount()
    ensures CalculateSummary(Run(AsWritten, OldDoc, NewDoc, Script).diff).additions == 0
  {
    InsertionAsWritten();
    SummaryOfTagged(NewDoc, Equal);
  }

  lemma InsertionAsWritten()
    ensures Run(AsWritten, OldDoc, NewDoc, Script).diff == TagAll(NewDoc, Equal)
  {
    TwoSteps(AsWritten, OldDoc, NewDoc, Script);
    StepAsWritten(OldDoc, NewDoc, Start, Script[0]);
    var first := Step(AsWritten, OldDoc, NewDoc, Start, Script[0]);
    assert NewDoc[0..] == NewDoc;
    assert first.diff == TagAll(NewDoc, Equal) && first.cur.rightIndex == 4;
    StepAsWritten(OldDoc, NewDoc, first, Script[1]);
    assert NewDoc[4..] == [];
  }

  /** As written, the equal pair takes all four right units, so the added
      paragraph and its text are shown as unchanged and no addition is
      counted. */
  lemma AsWrittenMissesInsertion()
    ensures IsEditScript(Script, Join(OldDoc), Join(NewDoc))
    ensures Run(AsWritten, OldDoc, NewDoc, Script).diff ==
      [Tag(Para1, Equal), Tag(Text1, Equal), Tag(Para2, Equal), Tag(Text2, Equal)]
    ensures CalculateSummary(Run(AsWritten, OldDoc, NewDoc, Script).diff).additions == 0
  {
    ScriptFitsDocuments();
    InsertionAsWritten();
    InsertionAsWrittenCount();
    assert TagAll(NewDoc, Equal) == [Tag(Para1, Equal), Tag(Text1, Equal), Tag(Para2, Equal), Tag(Text2, Equal)];
  }

  /** The corrected equal pair covers "ab\nab" (5 characters) with the
      first two right units. */
  lemma IntendedEqualStep()
    ensures var t := Step(Intended, OldDoc, NewDoc, Start, Script[0]);
      t.diff == [Tag(Para1, Equal), Tag(Text1, Equal)] && t.cur.rightIndex == 2 && t.cur.rightCharIndex == 6
  {
    assert Consume(Intended, NewDoc, 2, 0, 6, 5, Equal) == Consumed([], 2, 6);
    assert Consume(Intended, NewDoc, 1, 0, 3, 5, Equal) == Consumed([Tag(Text1, Equal)], 2, 6);
    assert Consume(Intended, NewDoc, 0, 0, 0, 5, Equal) == Consumed([Tag(Para1, Equal), Tag(Text1, Equal)], 2, 6);
    assert |Script[0].text| == 5;
  }

  /** The corrected insert pair covers "\nxy\nxy" (6 characters) with the
      last two right units. */
  lemma IntendedInsertStep(s: State)
    requires InBounds(s.cur, OldDoc, NewDoc)
    requires s.cur.rightIndex == 2 && s.cur.rightCharIndex == 6
    ensures Step(Intended, OldDoc, NewDoc, s, Script[1]).diff == s.diff + [Tag(Para2, Insert), Tag(Text2, Insert)]
  {
    assert Consume(Intended, NewDoc, 4, 6, 12, 6, Insert) == Consumed([], 4, 12);
    assert Consume(Intended, NewDoc, 3, 6, 9, 6, Insert) == Consumed([Tag(Text2, Insert)], 4, 12);
    assert Consume(Intended, NewDoc, 2, 6, 6, 6, Insert) == Consumed([Tag(Para2, Insert), Tag(Text2, Insert)], 4, 12);
    assert |Script[1].text| == 6;
  }

  /** With the corrected guard the equal pair takes only the kept paragraph
      and its text, and the insert pair marks the new paragraph and its
      text as added: two additions. */
  lemma IntendedFindsInsertion()
    ensures Run(Intended, OldDoc, NewDoc, Script).diff ==
      [Tag(Para1, Equal), Tag(Text1, Equal), Tag(Para2, Insert), Tag(Text2, Insert)]
    ensures CalculateSummary(Run(Intended, OldDoc, NewDoc, Script).diff).additions == 2
  {
    TwoSteps(Intended, OldDoc, NewDoc, Script);
    IntendedEqualStep();
    IntendedInsertStep(Step(Intended, OldDoc, NewDoc, Start, Script[0]));
    var d := [Tag(Para1, Equal), Tag(Text1, Equal), Tag(Para2, Insert), Tag(Text2, Insert)];
    assert Operations(d) == [Equal, Equal, Insert, Insert];
  }

  /** Two unit sequences, contents ["a", "b"] and ["a"], and an edit script
      between their joined texts "a\nb" and "a": keep "a", delete "\nb". */
  const UnitA: Unit := Unit(0, Text(None), "a", "a")
  const UnitB: Unit := Unit(1, Text(None), "b", "b")
  const Before: seq<Unit> := [UnitA, UnitB]
  const After: seq<Unit> := [UnitA]
  const Removal: seq<Edit> := [Edit(Equal, "a"), Edit(Delete, "\nb")]

  lemma RemovalFitsDocuments()
    ensures IsEditScript(Removal, Join(Before), Join(After))
  {
    assert Removal[1..][1..] == [];
    assert SourceText(Removal[1..]) == "\nb";
    assert TargetText(Removal[1..]) == "";
    assert Contents(Before) == ["a", "b"];
    assert Contents(Before)[1..] == ["b"];
    assert JoinLines(Contents(Before)[1..]) == "b";
    assert Contents(After) == ["a"];
  }

  lemma RemovalAsWritten()
    ensures Run(AsWritten, Before, After, Removal).diff ==
      [Tag(UnitA, Equal), Tag(UnitA, Delete), Tag(UnitB, Delete)]
  {
    TwoSteps(AsWritten, Before, After, Removal);
    StepAsWritten(Before, After, Start, Removal[0]);
    var w1 := Step(AsWritten, Before, After, Start, Removal[0]);
    assert After[0..] == After;
    assert w1.diff == [Tag(UnitA, Equal)] && w1.cur.leftIndex == 0;
    StepAsWritten(Before, After, w1, Removal[1]);
    assert Before[0..] == Before;
    assert TagAll(Before, Delete) == [Tag(UnitA, Delete), Tag(UnitB, Delete)];
  }

  lemma RemovalIntended()
    ensures Run(Intended, Before, After, Removal).diff == [Tag(UnitA, Equal), Tag(UnitA, Delete)]
  {
    TwoSteps(Intended, Before, After, Removal);
    var n1 := Step(Intended, Before, After, Start, Removal[0]);
    assert Consume(Intended, After, 1, 0, 2, 1, Equal) == Consumed([], 1, 2);
    assert Consume(Intended, After, 0, 0, 0, 1, Equal) == Consumed([Tag(UnitA, Equal)], 1, 2);
    assert n1.diff == [Tag(UnitA, Equal)];
    assert n1.cur.leftIndex == 0 && n1.cur.leftCharIndex == 1;
    assert Consume(Intended, Before, 1, 1, 3, 2, Delete) == Consumed([], 1, 3);
    assert Consume(Intended, Before, 0, 1, 1, 2, Delete) == Consumed([Tag(UnitA, Delete)], 1, 3);
  }

  /** The equal pair "a" moves only the left character cursor, so the delete
      pair starts at the left unit "a" the equal pair matched. With the
      guard as written "a" is reported both kept and removed; with only the
      guard corrected "a" is reported removed and the removed "b" is not
      reported at all. */
  lemma MatchedUnitDeleted()
    ensures IsEditScript(Removal, Join(Before), Join(After))
    ensures Run(AsWritten, Before, After, Removal).diff ==
      [Tag(UnitA, Equal), Tag(UnitA, Delete), Tag(UnitB, Delete)]
    ensures Run(Intended, Before, After, Removal).diff ==
      [Tag(UnitA, Equal), Tag(UnitA, Delete)]
  {
    RemovalFitsDocuments();
    RemovalAsWritten();
    RemovalIntended();
  }

  /** With both corrections the equal pair passes over the left unit "a",
      and the delete pair reports exactly the removed unit "b". */
  lemma AlignedDeletesRemovedUnit()
    ensures AlignedRun(Before, After, Removal).diff == [Tag(UnitA, Equal), Tag(UnitB, Delete)]
  {
    assert Removal[..1][..0] == [];
    assert Removal[..1][0] == Removal[0];
    var a1 := AlignedStep(Before, After, Start, Removal[0]);
    assert AlignedRun(Before, After, Removal[..1]) == a1;
    assert Consume(Intended, After, 1, 0, 2, 1, Equal) == Consumed([], 1, 2);
    assert Consume(Intended, After, 0, 0, 0, 1, Equal) == Consumed([Tag(UnitA, Equal)], 1, 2);
    assert Consume(Intended, Before, 1, 0, 2, 1, Equal) == Consumed([], 1, 2);
    assert Consume(Intended, Before, 0, 0, 0, 1, Equal) == Consumed([Tag(UnitA, Equal)], 1, 2);
    assert a1.diff == [Tag(UnitA, Equal)];
    assert a1.cur.leftIndex == 1 && a1.cur.leftCharIndex == 2;
    assert Consume(Intended, Before, 2, 2, 4, 2, Delete) == Consumed([], 2, 4);
    assert Consume(Intended, Before, 1, 2, 2, 2, Delete) == Consumed([Tag(UnitB, Delete)], 2, 4);
    assert AlignedRun(Before, After, Removal) == AlignedStep(Before, After, a1, Removal[1]);
  }
}

=== FILE: render.dfy ===
/** The simplified renderer of a list of diff entries. */
module Render {
  import opened Units

  /** One entry of a comparison result list, such as
      `{content: markup, type: 'modified'}`; `content` may be missing. */
  datatype DiffEntry = DiffEntry(content: Option<string>, kind: string)

  /** `entry.content || ''`: the content, or the empty string when missing. */
  function ContentOrEmpty(entry: DiffEntry): string
  {
    match entry.content
    case Some(c) => c
    case None => ""
  }

  /** The contents of `ds`, in order, with nothing between them. */
  function Concat(ds: seq<DiffEntry>): string
  {
    if |ds| == 0 then "" else ContentOrEmpty(ds[0]) + Concat(ds[1..])
  }

  /** `renderHtmlDifferences`: a missing or empty list renders as the empty
      string; a one-entry list renders as that entry's content. */
  function RenderHtmlDifferences(diffs: Option<seq<DiffEntry>>): (r: string)
    ensures diffs.None? ==> r == ""
    ensures diffs.Some? && |diffs.value| == 0 ==> r == ""
    ensures diffs.Some? && |diffs.value| == 1 ==> r == ContentOrEmpty(diffs.value[0])
  {
    if diffs.None? || |diffs.value| == 0 then ""
    else
      var first := ContentOrEmpty(diffs.value[0]);
      assert first + "" == first;
      assert |diffs.value| == 1 ==> Concat(diffs.value[1..]) == "";
      Concat(diffs.value)
  }

  /** Rendering a concatenation renders each part and concatenates: the
      output is built entry by entry, in order. */
  lemma {:induction false} RenderAppend(a: seq<DiffEntry>, b: seq<DiffEntry>)
    ensures RenderHtmlDifferences(Some(a + b)) == RenderHtmlDifferences(Some(a)) + RenderHtmlDifferences(Some(b))
    decreases |a|
  {
    if |a| == 0 {
      assert a + b == b;
    } else {
      assert (a + b)[1..] == a[1..] + b;
      RenderAppend(a[1..], b);
    }
  }

  /** Entry `k`'s content sits in the output between the rendering of the
      entries before it and the rendering of those after it. */
  lemma RenderAt(ds: seq<DiffEntry>, k: nat)
    requires k < |ds|
    ensures RenderHtmlDifferences(Some(ds)) ==
      RenderHtmlDifferences(Some(ds[..k])) + ContentOrEmpty(ds[k]) + RenderHtmlDifferences(Some(ds[k + 1..]))
  {
    assert ds == ds[..k] + [ds[k]] + ds[k + 1..];
    RenderAppend(ds[..k] + [ds[k]], ds[k + 1..]);
    RenderAppend(ds[..k], [ds[k]]);
  }
}

=== FILE: summary.dfy ===
/** The summary counts of a classified unit sequence. */
module Summary {
  import opened Units
  import opened EditScript

  /** The `{additions, deletions, changes}` object of the comparison result. */
  datatype Stats = Stats(additions: nat, deletions: nat, changes: nat)

  /** The operation of every classified unit, in order. */
  function Operations(d: seq<Classified>): (ops: seq<Op>)
    ensures |ops| == |d|
    ensures forall k :: 0 <= k < |d| ==> ops[k] == d[k].operation
  {
    seq(|d|, k requires 0 <= k < |d| => d[k].operation)
  }

  /** The `forEach` over the classified units: one addition per inserted
      unit, one deletion per deleted unit, nothing for an unchanged one.
      The counts are the number of occurrences of each operation. */
  function Tally(d: seq<Classified>): (t: (nat, nat))
    ensures t.0 == multiset(Operations(d))[Insert]
    ensures t.1 == multiset(Operations(d))[Delete]
    ensures t.0 + t.1 <= |d|
  {
    if |d| == 0 then (0, 0)
    else
      var n := |d| - 1;
      var t := Tally(d[..n]);
      assert Operations(d) == Operations(d[..n]) + [d[n].operation];
      match d[n].operation
      case Insert => (t.0 + 1, t.1)
      case Delete => (t.0, t.1 + 1)
      case Equal => t
  }

  /** The summary statistics: `additions` counts the inserted units,
      `deletions` the deleted ones, and `changes` is their sum, so it never
      exceeds the number of units. */
  function CalculateSummary(d: seq<Classified>): (s: Stats)
    ensures s.additions == multiset(Operations(d))[Insert]
    ensures s.deletions == multiset(Operations(d))[Delete]
    ensures s.changes == s.additions + s.deletions
    ensures s.changes <= |d|
  {
    var t := Tally(d);
    Stats(t.0, t.1, t.0 + t.1)
  }

  /** A run tagged with one operation counts each of its units once under
      that operation and nowhere else. */
  lemma {:induction false} CountTagAll(us: seq<Unit>, op: Op, o: Op)
    ensures multiset(Operations(TagAll(us, op)))[o] == if o == op then |us| else 0
    decreases |us|
  {
    if |us| > 0 {
      var n := |us| - 1;
      assert TagAll(us, op) == TagAll(us[..n], op) + [Tag(us[n], op)];
      assert Operations(TagAll(us, op)) == Operations(TagAll(us[..n], op)) + [op];
      CountTagAll(us[..n], op, o);
    }
  }

  /** The summary of a run tagged with a single operation. */
  lemma SummaryOfTagged(us: seq<Unit>, op: Op)
    ensures CalculateSummary(TagAll(us, op)).additions == if op == Insert then |us| else 0
    ensures CalculateSummary(TagAll(us, op)).deletions == if op == Delete then |us| else 0
  {
    CountTagAll(us, op, Insert);
    CountTagAll(us, op, Delete);
  }

  /** Counting distributes over concatenation. */
  lemma SummaryAppend(a: seq<Classified>, b: seq<Classified>)
    ensures CalculateSummary(a + b).additions == CalculateSummary(a).additions + CalculateSummary(b).additions
    ensures CalculateSummary(a + b).deletions == CalculateSummary(a).deletions + CalculateSummary(b).deletions
  {
    assert Operations(a + b) == Operations(a) + Operations(b);
  }
}

=== FILE: units.dfy ===
/** Content units: the atomic comparison grain of a document, and the
    newline-joined text the character diff runs over. */
module Units {

  datatype Option<+T> = None | Some(value: T)

  /** What the extractor recorded besides the text: an element carries its
      tag, attributes and direct-child count; a text run carries the tag of
      its parent element, if any. The mapper copies these unchanged. */
  datatype Kind =
    | Element(tagName: string, attributes: map<string, string>, children: nat)
    | Text(parent: Option<string>)

  /** One content unit: its position in its document, its kind, the text
      used for diffing and the markup used for rendering. */
  datatype Unit = Unit(id: nat, kind: Kind, content: string, html: string)

  const Separator: char := '\n'

  /** The `content` fields of a unit sequence, in order. */
  function Contents(us: seq<Unit>): (cs: seq<string>)
    ensures |cs| == |us|
    ensures forall k :: 0 <= k < |us| ==> cs[k] == us[k].content
  {
    seq(|us|, k requires 0 <= k < |us| => us[k].content)
  }

  /** Joins strings with the separator between consecutive ones. */
  function JoinLines(cs: seq<string>): string
  {
    if |cs| == 0 then ""
    else if |cs| == 1 then cs[0]
    else cs[0] + [Separator] + JoinLines(cs[1..])
  }

  /** The text a unit sequence presents to the character diff. It is one
      character shorter than the width the mapper's cursors count for the
      same units, since no separator follows the last unit; an empty
      sequence joins to the empty text. */
  function Join(us: seq<Unit>): (r: string)
    ensures |us| == 0 ==> r == ""
    ensures |us| > 0 ==> |r| + 1 == Width(us)
  {
    JoinLinesWidth(us);
    JoinLines(Contents(us))
  }

  /** Characters a run of units accounts for in the mapper's cursors: each
      unit's content plus one for the separator that follows it. */
  function Width(us: seq<Unit>): nat
  {
    if |us| == 0 then 0 else |us[0].content| + 1 + Width(us[1..])
  }

  lemma {:induction false} WidthAppend(a: seq<Unit>, b: seq<Unit>)
    ensures Width(a + b) == Width(a) + Width(b)
    decreases |a|
  {
    if |a| == 0 {
      assert a + b == b;
    } else {
      assert (a + b)[1..] == a[1..] + b;
      WidthAppend(a[1..], b);
    }
  }

  lemma {:induction false} JoinLinesWidth(us: seq<Unit>)
    ensures |us| > 0 ==> |JoinLines(Contents(us))| + 1 == Width(us)
    decreases |us|
  {
    if |us| > 1 {
      assert Contents(us)[1..] == Contents(us[1..]);
      JoinLinesWidth(us[1..]);
    }
  }

  /** Slicing past a prefix slices the suffix. */
  lemma SliceAfter(a: string, b: string, x: nat, y: nat)
    requires x <= y <= |b|
    ensures (a + b)[|a| + x..|a| + y] == b[x..y]
  {
  }

  /** Joining a non-empty tail puts the first content and a separator in
      front of the tail's join, and the tail's units keep their widths. */
  lemma JoinCons(us: seq<Unit>, k: nat)
    requires 0 < k < |us|
    ensures JoinLines(Contents(us)) == us[0].content + [Separator] + JoinLines(Contents(us[1..]))
    ensures Width(us[..k]) == |us[0].content| + 1 + Width(us[1..][..k - 1])
  {
    assert Contents(us)[1..] == Contents(us[1..]);
    assert us[..k][1..] == us[1..][..k - 1];
  }

  /** Where unit `k` lands in the joined text. */
  lemma {:induction false} JoinLayoutAt(us: seq<Unit>, k: nat)
    requires k < |us|
    ensures Width(us[..k]) + |us[k].content| <= |JoinLines(Contents(us))|
    ensures JoinLines(Contents(us))[Width(us[..k])..Width(us[..k]) + |us[k].content|] == us[k].content
    ensures k > 0 ==>
      0 < Width(us[..k]) <= |JoinLines(Contents(us))| &&
      JoinLines(Contents(us))[Width(us[..k]) - 1] == Separator
    decreases k
  {
    if k == 0 {
      var r := JoinLines(Contents(us));
      assert us[..0] == [];
      assert r[..|us[0].content|] == us[0].content;
    } else {
      var tail := us[1..];
      JoinLayoutAt(tail, k - 1);
      JoinCons(us, k);
      var front := us[0].content + [Separator];
      var rest := JoinLines(Contents(tail));
      var at := Width(tail[..k - 1]);
      assert tail[k - 1] == us[k];
      SliceAfter(front, rest, at, at + |us[k].content|);
      if k > 1 {
        assert (front + rest)[|front| + at - 1] == rest[at - 1];
      }
    }
  }

  /** Unit `k`'s content sits in the joined text at offset
      `Width(us[..k])`, the value the mapper's character cursor has when it
      reaches unit `k`, and a separator precedes it unless it is the first:
      the cursors and the text the diff ran over agree unit by unit. */
  lemma JoinLayout(us: seq<Unit>)
    ensures forall k :: 0 <= k < |us| ==>
      Width(us[..k]) + |us[k].content| <= |Join(us)| &&
      Join(us)[Width(us[..k])..Width(us[..k]) + |us[k].content|] == us[k].content
    ensures forall k :: 0 < k < |us| ==>
      0 < Width(us[..k]) <= |Join(us)| &&
      Join(us)[Width(us[..k]) - 1] == Separator
  {
    forall k | 0 <= k < |us| {
      JoinLayoutAt(us, k);
    }
  }

  /** First position of `c` in `s`. */
  function IndexOf(s: string, c: char): (r: nat)
    requires c in s
    ensures r < |s|
    ensures s[r] == c
    ensures c !in s[..r]
  {
    if s[0] == c then 0
    else
      assert s == [s[0]] + s[1..];
      var k := 1 + IndexOf(s[1..], c);
      assert s[..k] == [s[0]] + s[1..][..k - 1];
      k
  }

  /** Splits a string at every separator (the inverse of JoinLines). */
  function Split(s: string): (parts: seq<string>)
    ensures |parts| > 0
    decreases |s|
  {
    if Separator !in s then [s]
    else
      var i := IndexOf(s, Separator);
      [s[..i]] + Split(s[i + 1..])
  }

  /** The joined text is unambiguous when no content holds the separator:
      splitting it recovers every content, in order. */
  lemma {:induction false} SplitJoin(cs: seq<string>)
    requires |cs| > 0
    requires forall k :: 0 <= k < |cs| ==> Separator !in cs[k]
    ensures Split(JoinLines(cs)) == cs
    decreases |cs|
  {
    if |cs| > 1 {
      var s := JoinLines(cs);
      var rest := JoinLines(cs[1..]);
      assert s == cs[0] + [Separator] + rest;
      assert s[|cs[0]|] == Separator;
      var i := IndexOf(s, Separator);
      assert i == |cs[0]| by {
        assert s[..i + 1][|cs[0]|] == Separator;
      }
      assert s[..i] == cs[0];
      assert s[i + 1..] == rest;
      SplitJoin(cs[1..]);
    }
  }

  /** Round trip at the level of units. */
  lemma JoinSplitsIntoContents(us: seq<Unit>)
    requires |us| > 0
    requires forall k :: 0 <= k < |us| ==> Separator !in us[k].content
    ensures Split(Join(us)) == Contents(us)
  {
    SplitJoin(Contents(us));
  }
}
